=== FILE: README.md ===
# Optical link simulation core, in Dafny

A model of the computational core of an optical-link simulation backend
(`app.py`). The backend has three request handlers. The first covers laser
transmission through a medium. The second covers fiber propagation with
chromatic dispersion. The third covers an erbium-doped fiber amplifier
(EDFA). The model covers the parts of these handlers that are plain integer
or rational arithmetic:

- **Waveform synthesis** (`Modulation`). A bit sequence becomes a sampled
  waveform with `samples_per_bit` samples per bit. NRZ holds each bit over its
  whole slot. RZ writes 1 into the first half of the slot of each 1-bit. Any
  other scheme name writes nothing. The loop is modelled three ways: as a fold
  of per-bit slice assignments (`WriteBit`, `Fill`), as an array-filling
  method (`SynthesizeSignal`), and as an index rule (`SampleSpec`). Lemmas
  prove that all three agree.
- **Eye-diagram window selection** (`EyeDiagram`). This picks which
  bit-period windows of the waveform are overlaid. `SelectWindows` runs the
  selection loop. The lemmas tie it to a closed form (`ExpectedStarts`) and to
  the loop's own test (`Shown`).
- **Closed-form link formulas** over `real`:
  - `LinkBudget`: attenuation coefficient per medium, noise power, and SNR.
  - `FiberDispersion`: temporal broadening, attenuation in dB, and the width
    of the dispersion kernel.
  - `Edfa`: small-signal gain, single-pole saturated gain, output power,
    noise figure, and the noise-figure profile across the C band.
- **Sample grids** (`Grid`): numpy's `linspace`, which builds the wavelength
  axis of the EDFA trace.

Values that the program gets from `10**x` or `exp` are inputs to the model,
each a positive `real`: the decay factor `exp(-alpha*d)`, the loss factor
`10**(-attenuation/10)`, the input power in mW and the linear small-signal
gain. The relative gain roll-off `exp(...)` is an input in (0, 1]. Values the
program gets from `log10` (the gain and output power in dB, the spectrum in
dB) are not produced; the amplifier model returns the linear gain and the
output in mW instead, and the traced gain takes the gain in dB as an
arbitrary `real`. The random bit sequence is an input too.

Python floats are exact reals in the model: there is no rounding and no
underflow, and the only float limit modelled is the overflow of a float
power, `10**x` and `x**2`.

A Python `ZeroDivisionError` or `OverflowError` raised inside a handler is
caught there (app.py:179-183, 275-279, 345-349). The handler then returns an
error response in place of a result. The model writes this as
`Outcome.Result.Fail(ZeroDivision(..))` or `Outcome.Result.Fail(Overflow(..))`.

`10**x` on a float raises `OverflowError` once the result would exceed the
largest double, that is, for `x` above its decimal logarithm, about
`308.2547155599167` (`Outcome.Pow10`). The model uses this in three places:

- the amplifier's input power `10**(input_power_dbm/10)` (app.py:302);
- the amplifier's small-signal gain `10**(small_signal_gain_db/10)`
  (app.py:307). The gain in dB is a product of the request's values, so
  500 mW of pump, 100 m of fiber and 5000 ppm give 7500 dB, and the run fails
  (`Edfa.SmallSignalGainOverflows`);
- the dispersion run's loss factor `10**(-attenuation/10)` (app.py:213),
  which only a negative attenuation coefficient or length can overflow.

`x**2` on a float raises `OverflowError` in the same way once the square
exceeds the largest double (`Outcome.Square`). The dispersion kernel squares
its width `dispersion_sigma` (app.py:241), a plain Python float, so a huge
dispersion coefficient, length or bit rate fails there. For example,
D = 1e200 ps/nm/km over 1 m at 1 Gbps gives a width of 1e199.

Division by zero fails in five places:

- the SNR when the noise power is zero;
- the dispersion run when the bit rate is zero (the end of the time axis,
  `num_bits / bit_rate`, app.py:222);
- the dispersion run when the carrier wavelength is zero (the carrier
  frequency, `299792458 / (wavelength * 1e-9)`, app.py:255);
- the saturated gain when the saturation power is zero;
- the saturated gain when `1 + Pin/Psat` is zero.

The model follows the code, including where its behaviour is not the
idealised one:

- Boltzmann's constant is `1.38e-23`, as in the code, not `1.380649e-23`.
- A pump power of zero is not rejected. It gives a small-signal gain of 0 dB.
- A zero saturation power is not validated ahead of time. It fails only
  through the division.
- Every medium name other than `"fiber"` and `"air"`, including `"vacuum"`,
  gets the vacuum coefficient `0.001/1000`.
- With a dispersion coefficient of 0, the kernel width `dispersion_sigma` is 0
  (proved by `FiberDispersion.SigmaVanishesWithoutDispersion`). The kernel at
  app.py:241 then divides by `sigma**2 = 0`. On numpy arrays that division
  does not raise: it yields infinities. The kernel becomes all zeros, and
  normalising it (app.py:242) computes 0/0. So the waveform comes out NaN, not
  undispersed. This follows from numpy's floating-point semantics, which the
  model does not include, so the behaviour is described here, not modelled.

## Model

| member | source | states |
|---|---|---|
| Modulation.ParseScheme | app.py:231-236 | The scheme is NRZ exactly for the string "NRZ" and RZ exactly for "RZ" (case-sensitive); every other name is an unsupported scheme that keeps its name |
| Modulation.WriteBit | app.py:226-235 | The slice assignment for bit i keeps the signal's length and changes no sample outside the slot [i*spb, (i+1)*spb); inside the slot NRZ writes the bit, RZ writes 1 into the first spb/2 samples when the bit is 1, and other schemes write nothing |
| Modulation.FillPrefix | app.py:221-235 | After the first k loop iterations over a zero-initialised signal, each sample below k*spb holds its index-rule value and every later sample is still 0 |
| Modulation.SynthesizeIsWaveform | app.py:216-236 | The finished loop yields exactly num_bits*spb samples, each equal to the index rule SampleSpec |
| Modulation.SynthesizeSignal | app.py:220-236 | The array-filling loop, slot by slot with zero initialisation, yields the waveform the index rule describes |
| Modulation.NrzHoldsBit | app.py:231-232 | Under NRZ, sample j equals bits[j / spb] |
| Modulation.RzFirstHalf | app.py:233-235 | Under RZ, sample j is 1 iff bits[j / spb] is 1 and j % spb < spb / 2, and 0 otherwise |
| Modulation.WaveformShape | app.py:221-236 | The waveform has num_bits*spb samples, each 0 or 1; an unsupported scheme leaves it all zeros |
| Modulation.RzGatesNrz | app.py:228-235 | Each RZ sample equals the NRZ sample in the first half of its slot and is 0 in the second half |
| EyeDiagram.SelectWindows | app.py:24-35 | The loop over range(total - spb) keeps exactly the starts k*spb for k < min(n, number of bit periods starting before total - spb), and each kept window is signal[start..start+spb] and ends strictly inside the signal |
| EyeDiagram.StartsAreShownIndices | app.py:33-34 | An index is a selected start iff it lies in range(total - spb), is a multiple of spb and its period number is below n |
| EyeDiagram.WholePeriods | app.py:24-35 | For a signal of m whole bit periods, min(n, m - 1) windows are shown, and the final period (m - 1)*spb is never one of them |
| EyeDiagram.DefaultWindows | app.py:24 | With the default of 20 windows and 128 bits of 16 samples, the windows start at 0, 16, ..., 304 (20 windows) |
| Grid.Linspace | app.py:322 | A grid of num points that starts at start and, for two or more points, ends exactly at stop |
| Grid.LinspaceEvenlySpaced | app.py:322 | For two or more points, each point is one step (stop - start)/(num - 1) past the previous one, the last gap included |
| Grid.LinspaceIncreasing | app.py:322 | On an increasing range the grid points are strictly increasing and lie within [start, stop] |
| Outcome.Divide | app.py:161 | Python float division fails with ZeroDivisionError exactly on a zero divisor; otherwise the quotient times the divisor gives back the numerator |
| Outcome.Square | app.py:241 | Python's x**2 fails with OverflowError exactly when the square exceeds the largest double; otherwise it gives the non-negative square |
| Outcome.Pow10 | app.py:302-307 | Python's 10**x fails with OverflowError exactly when x exceeds the decimal logarithm of the largest double; otherwise it gives the supplied power |
| LinkBudget.ParseMedium | app.py:139-147 | "fiber" and "air" select their own branch; any other string, "vacuum" included, falls through to the vacuum branch |
| LinkBudget.AttenuationCoefficient | app.py:138-147 | The coefficient is positive; for fiber, times 4.343 and 1000 it recovers 0.2 dB/km; for air it is 0.1 per km; for vacuum 0.001 per km |
| LinkBudget.MediumOrdering | app.py:139-147 | Vacuum < fiber < air by loss; every medium name gets a coefficient between the vacuum and air values, and unrecognised names get the vacuum one |
| LinkBudget.NoisePowerInBandwidth | app.py:157-158 | Noise power 4kTB + 2IB is zero without bandwidth, additive over split bandwidths, and positive for T > 0, I >= 0, B > 0 |
| LinkBudget.ReceivedPower | app.py:153-154 | Received power from a positive decay factor is positive for positive source power, and no more than the source power when the factor is at most 1 |
| LinkBudget.Snr | app.py:160-161 | The SNR fails exactly when the noise power is zero; otherwise it times the noise power equals responsivity times received power |
| LinkBudget.SnrBehaviour | app.py:156-161 | Zero bandwidth makes the SNR fail; with a real detector and signal it is positive; it scales linearly with received power |
| LinkBudget.Transmit | app.py:149-161 | The handler's pipeline fails exactly on zero noise power and otherwise returns source power times decay and the SNR of that power |
| LinkBudget.AirScenario | app.py:139-161 | For 10 mW over 1000 m of air with 0.8 A/W, 10 nA, 10 GHz and 300 K, the exponent is -0.1 and the run succeeds with a positive SNR |
| FiberDispersion.BroadeningProperties | app.py:208-209 | Broadening is unchanged when the dispersion coefficient changes sign, non-negative for non-negative length and width, and, for positive length and width, zero iff the coefficient is zero |
| FiberDispersion.AttenuationAdditive | app.py:211-212 | Loss in dB is zero over zero length and additive over concatenated lengths |
| FiberDispersion.SigmaVanishesWithoutDispersion | app.py:238-241 | For positive length and bit rate, the kernel width is zero iff the dispersion coefficient is zero |
| FiberDispersion.Propagate | app.py:203-256 | The dispersion handler fails exactly when the loss factor 10^(-attenuation/10) overflows, the bit rate is zero, the kernel width's square overflows, or the carrier wavelength is zero, and the error is an overflow exactly in the first and third cases; otherwise it reports the broadening, dB loss and kernel width of the formulas and the input power times the loss factor, so the broadening is non-negative when the length is non-negative, the output power is positive for positive input and no larger than the input for a loss factor at most 1, and for positive length and bit rate the kernel width is zero iff the dispersion coefficient is zero; the waveform is the one the index rule gives at 16 samples per bit, and the carrier frequency times the wavelength is the speed of light |
| FiberDispersion.CarrierFrequency | app.py:255 | The carrier frequency in THz times the wavelength in nm, times 1000, is the speed of light 299792458 m/s |
| FiberDispersion.PropagateLoss | app.py:203-212 | A run that does not overflow or divide by zero, over a fiber of length l1 + l2 reports the sum of the dB losses of the two spans |
| FiberDispersion.SamplePayload | app.py:203-212 | The sample request's parameters, D = 17 ps/nm/km over 50 km with 0.2 dB/km, give 85 ps of broadening and 10 dB of loss |
| Edfa.SmallSignalGainProperties | app.py:304-306 | Small-signal gain is 0 dB when pump, length or concentration is 0, non-negative for non-negative inputs, and strictly increasing in pump power when length and concentration are positive |
| Edfa.SaturatedGain | app.py:309-310 | The saturated gain fails exactly when Psat = 0 or Pin = -Psat; otherwise it times (Psat + Pin) equals small-signal gain times Psat |
| Edfa.SaturationReducesGain | app.py:309-310 | For G > 0, Pin >= 0 and Psat > 0, the saturated gain is positive, at most G, and equal to G iff Pin = 0 |
| Edfa.SaturationMonotone | app.py:309-310 | The saturated gain is strictly decreasing in input power |
| Edfa.OutputSaturates | app.py:309-314 | Output power stays strictly below G*Psat and is strictly increasing in input power |
| Edfa.NoiseFigureFloor | app.py:317-319 | With pump <= 500 mW and input >= -30 dBm the noise figure is at least 3 dB, and equals 3 dB iff both bounds are met; it decreases in pump and increases in input power |
| Edfa.NoiseFigureProfileShape | app.py:329-330 | The per-wavelength noise figure is at least the scalar one, equals it iff the wavelength is 1550 nm, and is symmetric about 1550 nm |
| Edfa.BandWavelengths | app.py:322 | The band axis has 100 points from 1530 nm to 1565 nm |
| Edfa.NoiseFigureProfile | app.py:329-330 | The noise-figure trace has one entry per wavelength; each entry is at least the scalar noise figure and equals it iff its wavelength is 1550 nm |
| Edfa.GridMissesPeak | app.py:322 | No point of the 100-point 1530-1565 nm grid is exactly 1550 nm |
| Edfa.BandProfile | app.py:321-330 | The traced noise figure runs from nf + 10 dB at 1530 nm to nf + 7.5 dB at 1565 nm and is strictly above nf at every grid point |
| Edfa.GainProfile | app.py:324-327 | Scaling the gain by relative factors in (0, 1] keeps each traced gain's sign and never exceeds the scalar gain in magnitude |
| Edfa.Amplify | app.py:301-330 | Given the values of the two dB-to-linear conversions, the amplifier pipeline fails with OverflowError exactly when the input power or small-signal gain conversion overflows, and otherwise with ZeroDivisionError exactly when Psat = 0 or Pin = -Psat; on success it reports the saturated gain G*Psat/(Psat + Pin), the output power Pin times that gain, the noise figure of the formula and its profile over the 100-point band, so for Psat > 0 the gain lies strictly between 0 and G and the output power stays below G*Psat, and the trace never drops below the scalar noise figure, which is at least 3 dB within the pump and input bounds |
| Edfa.SaturatedBounds | app.py:309-314 | For positive G, Pin and Psat the saturated gain lies strictly between 0 and G and the output power stays below G*Psat |
| Edfa.SmallSignalGainOverflows | app.py:306-307 | 500 mW of pump, 100 m and 5000 ppm give a 7500 dB small-signal gain, whose conversion overflows, so the run fails with OverflowError |
| Edfa.SamplePayload | app.py:301-319 | The sample request's parameters, -20 dBm in, 100 mW pump, 10 m, 1000 ppm and 10 mW saturation: 30 dB small-signal gain, and a successful run that reports a 5.9 dB noise figure |

## Left out

- HTTP routes, JSON field extraction, the success/error envelope, and the
  unit scaling on ingestion (nA to A, GHz to Hz, km to m, Gbps to bps). These
  are transport glue. The model takes values already in the units the
  formulas use.
- Plot construction and base64 PNG encoding (`generate_*` functions). The
  model selects the eye-diagram windows but does not draw them.
- The Q-function and BER (`erfc`). These are transcendental.
- The `exp` decay trace over the distance grid. `LinkBudget.ReceivedPower`
  takes `exp(-alpha*d)` as an input.
- LinkBudget.Transmit: does not model the `OverflowError` that `math.exp`
  raises at app.py:151 and app.py:154 when `-alpha*d` exceeds about 709.78.
  Every coefficient is positive, so only a negative distance can cause it,
  and the decay factor is an input.
- Floating-point rounding and underflow. `10**x` for very negative `x` gives
  0.0 in Python, and then `np.log10` gives minus infinity. The model takes
  every converted value as a positive real instead. The overflow threshold
  is the decimal logarithm of the largest double rounded to 16 digits, so
  exponents within that rounding of it are not told apart.
- The dB to linear conversions `10**x` and the Gaussian gain roll-off. Their
  values are inputs to `Edfa.Amplify` and `Edfa.GainProfile`.
- Edfa.Amplify: does not produce the handler's `gain_db` and
  `output_power_dbm`, which are `10*log10` of the linear gain and of the
  output power; it returns those linear values instead, because `log10` is
  transcendental.
- The carrier frequency's grid of spectrum frequencies and the dB spectrum
  (`log10`). `FiberDispersion.Propagate` computes the carrier frequency and
  its failure on a zero wavelength only.
- The Gaussian dispersion kernel, `signal.convolve`, and the attenuated
  dispersed waveform. These depend on `exp` and numpy's floating point.
  The waveform that `FiberDispersion.Propagate` returns is the one before
  dispersion.
- Random bit generation. The bits are an input.
- The health-check route, the integration tests, and the start-up script.
- Modulation.SynthesizeSignal: requires spb > 0. The program fixes
  samples_per_bit at 16, so this only rules out a value it never uses.
- EyeDiagram.SelectWindows: requires spb > 0. The program always passes 16.
  With 0 the program's `i % bit_length` would raise.
- LinkBudget.ReceivedPower: states no decrease with distance. The decay
  factor is an input, so that property belongs to `exp`, which is not
  modelled.

=== FILE: arith.dfy ===
/** Arithmetic shared by the models: integer division facts the sampling
    rules rely on (Dafny's `/` and `%` agree with Python's `//` and `%` here
    because every operand is non-negative), and the real absolute value. */
module Arith {

  /** Python's abs on a real. */
  function Abs(x: real): (a: real)
    ensures a >= 0.0 && (a == x || a == -x)
  {
    if x < 0.0 then -x else x
  }

  /** Sample j lies in slot i exactly when its quotient by the slot width is i. */
  lemma {:induction false} SlotOf(j: int, spb: int, i: int)
    requires spb > 0
    requires i * spb <= j < (i + 1) * spb
    ensures j / spb == i
    ensures j % spb == j - i * spb
  {
    var q, r := j / spb, j % spb;
    assert j == q * spb + r && 0 <= r < spb;
    MulCancel(i, q + 1, spb);
    MulCancel(q, i + 1, spb);
  }

  /** A strict inequality between multiples of a positive factor holds of the factors. */
  lemma MulCancel(a: int, b: int, c: int)
    requires c > 0 && a * c < b * c
    ensures a < b
  {
    if a >= b {
      MulMono(b, a, c);
    }
  }

  /** Multiplying by a non-negative factor keeps order. */
  lemma MulMono(a: int, b: int, c: int)
    requires 0 <= c && a <= b
    ensures a * c <= b * c
  {
  }

  /** Every index below n * spb falls in one of the first n slots. */
  lemma {:induction false} SlotBound(j: int, spb: int, n: int)
    requires spb > 0 && 0 <= j < n * spb
    ensures 0 <= j / spb < n
  {
    var q := j / spb;
    assert j == q * spb + j % spb;
    MulCancel(q, n, spb);
  }

  /** The number of multiples of spb in [0, i): the ceiling of i / spb. */
  function MultiplesBelow(i: nat, spb: nat): (c: nat)
    requires spb > 0
  {
    (i + spb - 1) / spb
  }

  /** Counting multiples below i + 1 adds one exactly when i itself is a multiple. */
  lemma {:induction false} MultiplesBelowStep(i: nat, spb: nat)
    requires spb > 0
    ensures i % spb == 0 ==> MultiplesBelow(i, spb) == i / spb
    ensures i % spb == 0 ==> MultiplesBelow(i + 1, spb) == MultiplesBelow(i, spb) + 1
    ensures i % spb != 0 ==> MultiplesBelow(i + 1, spb) == MultiplesBelow(i, spb)
  {
    var q, r := i / spb, i % spb;
    assert i == q * spb + r && 0 <= r < spb;
    assert (q + 1) * spb == q * spb + spb;
    assert (q + 2) * spb == q * spb + spb + spb;
    if r == 0 {
      AtMultiple(i, spb, q);
    } else {
      PastMultiple(i, spb, q, r);
    }
  }

  lemma AtMultiple(i: nat, spb: nat, q: nat)
    requires spb > 0 && i == q * spb
    ensures MultiplesBelow(i, spb) == q
    ensures MultiplesBelow(i + 1, spb) == q + 1
  {
    assert (q + 1) * spb == i + spb;
    assert (q + 2) * spb == i + spb + spb;
    SlotOf(i + spb - 1, spb, q);
    SlotOf(i + spb, spb, q + 1);
  }

  lemma PastMultiple(i: nat, spb: nat, q: nat, r: nat)
    requires spb > 0 && i == q * spb + r && 0 < r < spb
    ensures MultiplesBelow(i, spb) == q + 1
    ensures MultiplesBelow(i + 1, spb) == q + 1
  {
    assert (q + 1) * spb == q * spb + spb;
    assert (q + 2) * spb == q * spb + spb + spb;
    SlotOf(i + spb - 1, spb, q + 1);
    SlotOf(i + spb, spb, q + 1);
  }
}

=== FILE: edfa.dfy ===
/** Erbium-doped fiber amplifier: the empirical small-signal gain, single-pole
    gain saturation, output power and noise figure, with the noise-figure
    profile across the C band. Conversions between dB and linear scale
    (10^(x/10) and 10 log10 x) and the Gaussian gain roll-off are inputs. */
module Edfa {
  import Outcome
  import Arith
  import Grid

  /** Small-signal gain in dB, the program's curve fit: 30 dB at 100 mW of
      pump, 10 m of fiber and 1000 ppm of erbium, and proportional to each. */
  function SmallSignalGainDb(pumpMw: real, lengthM: real, concentrationPpm: real): (db: real)
  {
    30.0 * (pumpMw / 100.0) * (lengthM / 10.0) * (concentrationPpm / 1000.0)
  }

  /** No pump, no fiber or no erbium means no gain; with fiber and erbium
      present, more pump gives strictly more gain. */
  lemma SmallSignalGainProperties(pump: real, pump2: real, lengthM: real, concentrationPpm: real)
    ensures pump == 0.0 || lengthM == 0.0 || concentrationPpm == 0.0 ==>
      SmallSignalGainDb(pump, lengthM, concentrationPpm) == 0.0
    ensures pump >= 0.0 && lengthM >= 0.0 && concentrationPpm >= 0.0 ==>
      SmallSignalGainDb(pump, lengthM, concentrationPpm) >= 0.0
    ensures lengthM > 0.0 && concentrationPpm > 0.0 && pump < pump2 ==>
      SmallSignalGainDb(pump, lengthM, concentrationPpm) < SmallSignalGainDb(pump2, lengthM, concentrationPpm)
  {
    var c := (lengthM / 10.0) * (concentrationPpm / 1000.0);
    assert SmallSignalGainDb(pump, lengthM, concentrationPpm) == 30.0 * (pump / 100.0) * c;
    assert SmallSignalGainDb(pump2, lengthM, concentrationPpm) == 30.0 * (pump2 / 100.0) * c;
    if lengthM > 0.0 && concentrationPpm > 0.0 {
      assert c > 0.0;
    }
    if lengthM >= 0.0 && concentrationPpm >= 0.0 {
      assert c >= 0.0;
    }
  }

  /** Single-pole saturation: the linear small-signal gain divided by
      1 + Pin / Psat. Both divisions raise ZeroDivisionError in the program
      when their divisor is zero: Psat = 0, or Pin = -Psat. */
  function SaturatedGain(smallSignalGain: real, inputPower: real, saturationPower: real): (r: Outcome.Result<real>)
    ensures r.Fail? <==> saturationPower == 0.0 || inputPower + saturationPower == 0.0
    ensures r.Fail? ==> r.error.ZeroDivision?
    ensures r.Ok? ==> r.value * (saturationPower + inputPower) == smallSignalGain * saturationPower
  {
    var ratio :- Outcome.Divide(inputPower, saturationPower, "saturation power");
    assert 1.0 + ratio == 0.0 <==> inputPower + saturationPower == 0.0 by {
      assert ratio * saturationPower == inputPower;
      assert (1.0 + ratio) * saturationPower == saturationPower + inputPower;
    }
    var g := Outcome.Divide(smallSignalGain, 1.0 + ratio, "saturated gain");
    assert g.Ok? ==> g.value * (saturationPower + inputPower) == smallSignalGain * saturationPower by {
      if g.Ok? {
        assert (1.0 + ratio) * saturationPower == saturationPower + inputPower;
        calc {
          g.value * (saturationPower + inputPower);
          g.value * ((1.0 + ratio) * saturationPower);
          (g.value * (1.0 + ratio)) * saturationPower;
        }
      }
    }
    g
  }

  /** With positive gain, input and saturation power the saturated gain is
      positive and strictly below the small-signal gain; with no input it is
      the small-signal gain itself. */
  lemma SaturationReducesGain(smallSignalGain: real, inputPower: real, saturationPower: real)
    requires smallSignalGain > 0.0 && inputPower >= 0.0 && saturationPower > 0.0
    ensures SaturatedGain(smallSignalGain, inputPower, saturationPower).Ok?
    ensures 0.0 < SaturatedGain(smallSignalGain, inputPower, saturationPower).value <= smallSignalGain
    ensures SaturatedGain(smallSignalGain, inputPower, saturationPower).value == smallSignalGain <==> inputPower == 0.0
  {
    var g := SaturatedGain(smallSignalGain, inputPower, saturationPower).value;
    var s := saturationPower + inputPower;
    assert g * s == smallSignalGain * saturationPower;
  }

  /** The saturated gain falls strictly as the input power rises. */
  lemma SaturationMonotone(smallSignalGain: real, p1: real, p2: real, saturationPower: real)
    requires smallSignalGain > 0.0 && saturationPower > 0.0 && 0.0 <= p1 < p2
    ensures SaturatedGain(smallSignalGain, p1, saturationPower).Ok?
    ensures SaturatedGain(smallSignalGain, p2, saturationPower).Ok?
    ensures SaturatedGain(smallSignalGain, p2, saturationPower).value
          < SaturatedGain(smallSignalGain, p1, saturationPower).value
  {
    SaturationReducesGain(smallSignalGain, p1, saturationPower);
    SaturationReducesGain(smallSignalGain, p2, saturationPower);
    var g1 := SaturatedGain(smallSignalGain, p1, saturationPower).value;
    var g2 := SaturatedGain(smallSignalGain, p2, saturationPower).value;
    var k := smallSignalGain * saturationPower;
    var s1, s2 := saturationPower + p1, saturationPower + p2;
    assert g1 * s1 == k && g2 * s2 == k;
    assert g2 * s1 < g2 * s2;
    assert (g1 - g2) * s1 > 0.0;
  }

  /** Output power in mW: input power times linear gain. */
  function OutputPower(inputPower: real, gain: real): (mw: real)
  {
    inputPower * gain
  }

  /** Saturation caps the output: it stays below small-signal gain times
      saturation power, however strong the input, and still grows with it. */
  lemma OutputSaturates(smallSignalGain: real, p1: real, p2: real, saturationPower: real)
    requires smallSignalGain > 0.0 && saturationPower > 0.0 && 0.0 <= p1 < p2
    ensures SaturatedGain(smallSignalGain, p1, saturationPower).Ok?
    ensures SaturatedGain(smallSignalGain, p2, saturationPower).Ok?
    ensures OutputPower(p2, SaturatedGain(smallSignalGain, p2, saturationPower).value)
          < smallSignalGain * saturationPower
    ensures OutputPower(p1, SaturatedGain(smallSignalGain, p1, saturationPower).value)
          < OutputPower(p2, SaturatedGain(smallSignalGain, p2, saturationPower).value)
  {
    SaturationReducesGain(smallSignalGain, p1, saturationPower);
    SaturationReducesGain(smallSignalGain, p2, saturationPower);
    var g1 := SaturatedGain(smallSignalGain, p1, saturationPower).value;
    var g2 := SaturatedGain(smallSignalGain, p2, saturationPower).value;
    var k := smallSignalGain * saturationPower;
    var s1, s2 := saturationPower + p1, saturationPower + p2;
    assert g1 * s1 == k && g2 * s2 == k;
    // out_i * s_i == k * p_i
    assert p2 * g2 * s2 == p2 * k;
    assert p1 * g1 * s1 == p1 * k;
    // p1 * g1 < p2 * g2  <=>  p1 * k / s1 < p2 * k / s2  <=>  p1 * s2 < p2 * s1
    assert p1 * s2 < p2 * s1;
  }

  /** The quantum limit the noise figure is measured against, in dB. */
  const QuantumLimitDb: real := 3.0

  /** Noise figure in dB: the 3 dB floor plus penalties for under-pumping
      (relative to 500 mW) and for input power above -30 dBm. */
  function NoiseFigureDb(pumpMw: real, inputDbm: real): (nf: real)
  {
    3.0 + 3.0 * (1.0 - pumpMw / 500.0) + 2.0 * (inputDbm + 30.0) / 40.0
  }

  /** Up to 500 mW of pump and from -30 dBm of input, the noise figure is at
      least the quantum limit, and meets it only at both bounds. It falls with
      pump power and rises with input power. */
  lemma NoiseFigureFloor(pumpMw: real, inputDbm: real, pump2: real, input2: real)
    ensures pumpMw <= 500.0 && inputDbm >= -30.0 ==> NoiseFigureDb(pumpMw, inputDbm) >= QuantumLimitDb
    ensures pumpMw <= 500.0 && inputDbm >= -30.0 ==>
      (NoiseFigureDb(pumpMw, inputDbm) == QuantumLimitDb <==> pumpMw == 500.0 && inputDbm == -30.0)
    ensures pumpMw < pump2 ==> NoiseFigureDb(pump2, inputDbm) < NoiseFigureDb(pumpMw, inputDbm)
    ensures inputDbm < input2 ==> NoiseFigureDb(pumpMw, inputDbm) < NoiseFigureDb(pumpMw, input2)
  {
  }

  /** Wavelength of the gain peak and of the lowest noise figure, in nm. */
  const PeakWavelengthNm: real := 1550.0

  /** Noise figure at one wavelength: 0.5 dB per nm away from the peak. */
  function NoiseFigureAt(nf: real, wavelengthNm: real): (r: real)
  {
    nf + 0.5 * Arith.Abs(wavelengthNm - PeakWavelengthNm)
  }

  /** The profile never drops below the scalar noise figure, equals it only
      at the peak, and is symmetric about the peak. */
  lemma NoiseFigureProfileShape(nf: real, wavelengthNm: real, d: real)
    ensures NoiseFigureAt(nf, wavelengthNm) >= nf
    ensures NoiseFigureAt(nf, wavelengthNm) == nf <==> wavelengthNm == PeakWavelengthNm
    ensures NoiseFigureAt(nf, PeakWavelengthNm + d) == NoiseFigureAt(nf, PeakWavelengthNm - d)
  {
  }

  /** The traced band: 100 evenly spaced wavelengths from 1530 to 1565 nm. */
  function BandWavelengths(): (w: seq<real>)
    ensures |w| == 100 && w[0] == 1530.0 && w[99] == 1565.0
  {
    Grid.Linspace(1530.0, 1565.0, 100)
  }

  /** Noise figure at each wavelength of the trace: never below the scalar
      noise figure, and equal to it exactly at the peak wavelength. */
  function NoiseFigureProfile(nf: real, wavelengths: seq<real>): (r: seq<real>)
    ensures |r| == |wavelengths|
    ensures forall k :: 0 <= k < |r| ==> r[k] >= nf && (r[k] == nf <==> wavelengths[k] == PeakWavelengthNm)
  {
    var r := seq(|wavelengths|, k requires 0 <= k < |wavelengths| => NoiseFigureAt(nf, wavelengths[k]));
    forall k | 0 <= k < |r|
      ensures r[k] >= nf && (r[k] == nf <==> wavelengths[k] == PeakWavelengthNm)
    {
      NoiseFigureProfileShape(nf, wavelengths[k], 0.0);
    }
    r
  }

  /** Over the C-band trace the noise figure runs from nf + 10 dB at 1530 nm
      to nf + 7.5 dB at 1565 nm and stays strictly above nf everywhere. */
  lemma BandProfile(nf: real)
    ensures |NoiseFigureProfile(nf, BandWavelengths())| == 100
    ensures NoiseFigureProfile(nf, BandWavelengths())[0] == nf + 10.0
    ensures NoiseFigureProfile(nf, BandWavelengths())[99] == nf + 7.5
    ensures forall k :: 0 <= k < 100 ==> NoiseFigureProfile(nf, BandWavelengths())[k] > nf
  {
    var w := BandWavelengths();
    var r := NoiseFigureProfile(nf, w);
    forall k | 0 <= k < 100
      ensures r[k] > nf
    {
      GridMissesPeak(k);
      NoiseFigureProfileShape(nf, w[k], 0.0);
    }
  }

  /** 1550 nm falls between two points of the band grid (1550 - 1530 is not a
      multiple of the 35/99 nm step), so the trace never samples the peak. */
  lemma GridMissesPeak(k: nat)
    requires k < 100
    ensures BandWavelengths()[k] != PeakWavelengthNm
  {
    var x := Grid.Point(1530.0, 1565.0, 100, k);
    assert BandWavelengths()[k] == x;
    assert k < 99 ==> x == 1530.0 + (k as real) * (35.0 / 99.0) by {
      assert Grid.Offset(1530.0, 1565.0, 100, k) == (k as real) * (35.0 / 99.0);
    }
  }

  /** Gain in dB across the band: the scalar gain scaled by a relative
      factor per wavelength (the Gaussian roll-off, in (0, 1]). */
  function GainProfile(gainDb: real, relative: seq<real>): (r: seq<real>)
    requires forall k :: 0 <= k < |relative| ==> 0.0 < relative[k] <= 1.0
    ensures |r| == |relative|
    ensures forall k :: 0 <= k < |r| ==> BetweenZeroAnd(r[k], gainDb)
  {
    var r := seq(|relative|, k requires 0 <= k < |relative| => gainDb * relative[k]);
    forall k | 0 <= k < |r|
      ensures BetweenZeroAnd(r[k], gainDb)
    {
      ScaleBelowOne(gainDb, relative[k]);
    }
    r
  }

  /** y has the sign of x (zero with it) and no larger magnitude. */
  predicate BetweenZeroAnd(y: real, x: real)
  {
    && (x > 0.0 ==> 0.0 < y <= x)
    && (x == 0.0 ==> y == 0.0)
    && (x < 0.0 ==> x <= y < 0.0)
  }

  lemma ScaleBelowOne(x: real, f: real)
    requires 0.0 < f <= 1.0
    ensures BetweenZeroAnd(x * f, x)
  {
    if x > 0.0 {
      assert x * f <= x * 1.0;
    } else if x < 0.0 {
      assert x * 1.0 <= x * f;
    }
  }

  /** Amplifier parameters the formulas consume. */
  datatype EdfaParams = EdfaParams(
    inputPowerDbm: real,
    pumpPower: real,         // mW
    fiberLength: real,       // m
    erConcentration: real,   // ppm
    saturationPower: real)   // mW

  /** Linear-scale results of one amplifier run. */
  datatype EdfaResult = EdfaResult(
    gain: real,              // linear
    outputPower: real,       // mW
    noiseFigureDb: real,
    noiseFigures: seq<real>)

  /** One of the handler's two dB-to-linear conversions overflows: the input
      power 10^(dBm/10), or, after it, the small-signal gain 10^(dB/10). */
  predicate ConversionOverflows(p: EdfaParams)
  {
    || p.inputPowerDbm / 10.0 > Outcome.MaxPow10Exponent
    || SmallSignalGainDb(p.pumpPower, p.fiberLength, p.erConcentration) / 10.0 > Outcome.MaxPow10Exponent
  }

  /** The amplifier handler's computation, given the values of the two
      conversions: the input power in mW and the linear small-signal gain.
      It fails where the handler raises: OverflowError in a conversion, then
      ZeroDivisionError in the saturated gain. */
  function Amplify(p: EdfaParams, inputPowerMw: real, smallSignalGain: real): (r: Outcome.Result<EdfaResult>)
    requires inputPowerMw > 0.0 && smallSignalGain > 0.0
    ensures r.Fail? <==>
      ConversionOverflows(p) || p.saturationPower == 0.0 || inputPowerMw + p.saturationPower == 0.0
    ensures r.Fail? ==> (r.error.Overflow? <==> ConversionOverflows(p))
    ensures r.Ok? ==> r.value.gain * (p.saturationPower + inputPowerMw) == smallSignalGain * p.saturationPower
    ensures r.Ok? ==> r.value.outputPower == OutputPower(inputPowerMw, r.value.gain)
    ensures r.Ok? ==> r.value.noiseFigureDb == NoiseFigureDb(p.pumpPower, p.inputPowerDbm)
    ensures r.Ok? ==> r.value.noiseFigures == NoiseFigureProfile(r.value.noiseFigureDb, BandWavelengths())
    ensures r.Ok? && p.saturationPower > 0.0 ==>
      0.0 < r.value.gain < smallSignalGain && r.value.outputPower < smallSignalGain * p.saturationPower
    ensures r.Ok? ==> |r.value.noiseFigures| == 100
    ensures r.Ok? ==> forall k :: 0 <= k < 100 ==> r.value.noiseFigures[k] >= r.value.noiseFigureDb
    ensures r.Ok? && p.pumpPower <= 500.0 && p.inputPowerDbm >= -30.0 ==> r.value.noiseFigureDb >= QuantumLimitDb
  {
    var gainDb := SmallSignalGainDb(p.pumpPower, p.fiberLength, p.erConcentration);
    var pin :- Outcome.Pow10(p.inputPowerDbm / 10.0, inputPowerMw, "input power");
    var g0 :- Outcome.Pow10(gainDb / 10.0, smallSignalGain, "small-signal gain");
    var g :- SaturatedGain(g0, pin, p.saturationPower);
    var nf := NoiseFigureDb(p.pumpPower, p.inputPowerDbm);
    NoiseFigureFloor(p.pumpPower, p.inputPowerDbm, 0.0, 0.0);
    BandProfile(nf);
    SaturatedBounds(g0, pin, p.saturationPower);
    Outcome.Ok(EdfaResult(g, OutputPower(pin, g), nf, NoiseFigureProfile(nf, BandWavelengths())))
  }

  /** With positive gain, input and saturation power, the saturated gain lies
      strictly between 0 and the small-signal gain, and the output stays below
      the small-signal gain times the saturation power. */
  lemma SaturatedBounds(smallSignalGain: real, inputPower: real, saturationPower: real)
    requires smallSignalGain > 0.0 && inputPower > 0.0
    ensures saturationPower > 0.0 ==>
      && SaturatedGain(smallSignalGain, inputPower, saturationPower).Ok?
      && 0.0 < SaturatedGain(smallSignalGain, inputPower, saturationPower).value < smallSignalGain
      && OutputPower(inputPower, SaturatedGain(smallSignalGain, inputPower, saturationPower).value)
         < smallSignalGain * saturationPower
  {
    if saturationPower > 0.0 {
      OutputSaturates(smallSignalGain, 0.0, inputPower, saturationPower);
      SaturationReducesGain(smallSignalGain, inputPower, saturationPower);
    }
  }

  /** At the top of the sample request's parameter ranges (500 mW pump, 100 m,
      5000 ppm) the small-signal gain is 7500 dB, so its conversion 10^750
      overflows and the run fails, whatever the other inputs. */
  lemma SmallSignalGainOverflows(inputDbm: real, saturationPower: real, inputPowerMw: real, smallSignalGain: real)
    requires inputPowerMw > 0.0 && smallSignalGain > 0.0
    ensures SmallSignalGainDb(500.0, 100.0, 5000.0) == 7500.0
    ensures Amplify(EdfaParams(inputDbm, 500.0, 100.0, 5000.0, saturationPower), inputPowerMw, smallSignalGain).Fail?
    ensures Amplify(EdfaParams(inputDbm, 500.0, 100.0, 5000.0, saturationPower), inputPowerMw, smallSignalGain).error.Overflow?
  {
  }

  /** The sample request's parameters: -20 dBm in, 100 mW pump, 10 m,
      1000 ppm, 10 mW saturation give 30 dB of small-signal gain, a 5.9 dB
      noise figure, and a successful run whatever the dB conversions give. */
  lemma SamplePayload(inputPowerMw: real, smallSignalGain: real)
    requires inputPowerMw > 0.0 && smallSignalGain > 0.0
    ensures SmallSignalGainDb(100.0, 10.0, 1000.0) == 30.0
    ensures NoiseFigureDb(100.0, -20.0) == 5.9
    ensures Amplify(EdfaParams(-20.0, 100.0, 10.0, 1000.0, 10.0), inputPowerMw, smallSignalGain).Ok?
    ensures Amplify(EdfaParams(-20.0, 100.0, 10.0, 1000.0, 10.0), inputPowerMw, smallSignalGain).value.noiseFigureDb == 5.9
  {
  }
}

=== FILE: eye_diagram.dfy ===
/** Which bit-period windows of a waveform the eye diagram overlays. Only the
    selection is modelled; drawing the windows is left to the renderer. */
module EyeDiagram {
  import Arith

  /** Windows the program overlays by default. */
  const DefaultWindowsShown: nat := 20

  function Min(a: nat, b: nat): nat
  {
    if a <= b then a else b
  }

  /** The test the loop applies to a candidate start index i of a signal of
      `total` samples: i is in range(total - spb), starts a bit period, and the
      period is among the first n. */
  predicate Shown(total: nat, spb: nat, n: nat, i: int)
    requires spb > 0
  {
    0 <= i < total - spb && i % spb == 0 && i / spb < n
  }

  /** Number of whole bit periods the loop's range reaches: the multiples of
      spb strictly below total - spb. */
  function PeriodsInRange(total: nat, spb: nat): nat
    requires spb > 0
  {
    if total <= spb then 0 else Arith.MultiplesBelow(total - spb, spb)
  }

  /** The start indices the eye diagram should use: the first
      Min(n, PeriodsInRange) multiples of spb. */
  function ExpectedStarts(total: nat, spb: nat, n: nat): (s: seq<nat>)
    requires spb > 0
  {
    seq(Min(n, PeriodsInRange(total, spb)), k => k * spb)
  }

  /** The selection loop: scans every index of range(total - spb) and keeps the
      window signal[i..i + spb] of each index passing the test. */
  method SelectWindows<T>(signal: seq<T>, spb: nat, n: nat) returns (starts: seq<nat>, windows: seq<seq<T>>)
    requires spb > 0
    ensures starts == ExpectedStarts(|signal|, spb, n)
    ensures |windows| == |starts|
    ensures forall k :: 0 <= k < |starts| ==>
      starts[k] + spb < |signal| && windows[k] == signal[starts[k]..starts[k] + spb]
  {
    var total := |signal|;
    var limit := if total <= spb then 0 else total - spb;
    starts, windows := [], [];
    var i := 0;
    assert Arith.MultiplesBelow(0, spb) == 0;
    while i < limit
      invariant 0 <= i <= limit
      invariant |starts| == Min(n, Arith.MultiplesBelow(i, spb))
      invariant forall k :: 0 <= k < |starts| ==> starts[k] == k * spb
      invariant |windows| == |starts|
      invariant forall k :: 0 <= k < |starts| ==>
        starts[k] + spb < total && windows[k] == signal[starts[k]..starts[k] + spb]
    {
      SelectStep(i, spb, n);
      if i % spb == 0 && i / spb < n {
        starts := starts + [i];
        windows := windows + [signal[i..i + spb]];
      }
      i := i + 1;
    }
    assert |starts| == Min(n, PeriodsInRange(total, spb));
  }

  /** One iteration of the selection loop: index i is kept exactly when it is
      the next multiple of spb still under the cap n, so the count of kept
      windows grows by one or stays put. */
  lemma SelectStep(i: nat, spb: nat, n: nat)
    requires spb > 0
    ensures i % spb == 0 && i / spb < n ==>
      Min(n, Arith.MultiplesBelow(i + 1, spb)) == Min(n, Arith.MultiplesBelow(i, spb)) + 1 &&
      i == Min(n, Arith.MultiplesBelow(i, spb)) * spb
    ensures !(i % spb == 0 && i / spb < n) ==>
      Min(n, Arith.MultiplesBelow(i + 1, spb)) == Min(n, Arith.MultiplesBelow(i, spb))
  {
    Arith.MultiplesBelowStep(i, spb);
    if i % spb == 0 {
      assert i == (i / spb) * spb;
    }
  }

  /** A start index is selected exactly when it passes the loop's test. */
  lemma StartsAreShownIndices(total: nat, spb: nat, n: nat, i: int)
    requires spb > 0
    ensures i in ExpectedStarts(total, spb, n) <==> Shown(total, spb, n, i)
  {
    var s := ExpectedStarts(total, spb, n);
    if i in s {
      var k :| 0 <= k < |s| && s[k] == i;
      Arith.SlotOf(i, spb, k);
      assert k < PeriodsInRange(total, spb);
      PeriodBelowRange(total, spb, k);
    }
    if Shown(total, spb, n, i) {
      var k := i / spb;
      assert i == k * spb;
      RangeContainsPeriod(total, spb, k);
      assert s[k] == i;
    }
  }

  /** Period k lies in the loop's range when k counts below PeriodsInRange. */
  lemma PeriodBelowRange(total: nat, spb: nat, k: nat)
    requires spb > 0 && k < PeriodsInRange(total, spb)
    ensures k * spb < total - spb
  {
    var c := total - spb;
    Arith.MulMono(k + 1, (c + spb - 1) / spb, spb);
    assert (c + spb - 1) / spb * spb <= c + spb - 1;
  }

  /** Conversely, a start in the loop's range has its period counted. */
  lemma RangeContainsPeriod(total: nat, spb: nat, k: nat)
    requires spb > 0 && k * spb < total - spb
    ensures k < PeriodsInRange(total, spb)
  {
    var c := total - spb;
    Arith.SlotOf(c + spb - 1, spb, (c + spb - 1) / spb);
    if k >= (c + spb - 1) / spb {
      Arith.MulMono((c + spb - 1) / spb, k, spb);
    }
  }

  /** For a signal of m whole bit periods, the eye shows min(n, m - 1) periods:
      the final period is never overlaid. */
  lemma WholePeriods(m: nat, spb: nat, n: nat)
    requires spb > 0 && m >= 1
    ensures |ExpectedStarts(m * spb, spb, n)| == Min(n, m - 1)
    ensures (m - 1) * spb !in ExpectedStarts(m * spb, spb, n)
  {
    if m * spb <= spb {
      Arith.MulCancel(m, 2, spb);
    } else {
      Arith.SlotOf(m * spb - 1, spb, m - 1);
      assert m * spb - spb + spb - 1 == m * spb - 1;
    }
    StartsAreShownIndices(m * spb, spb, n, (m - 1) * spb);
  }

  /** With the program's constants (128 bits of 16 samples, 20 windows by
      default) the windows start at 0, 16, ..., 304. */
  lemma DefaultWindows()
    ensures ExpectedStarts(128 * 16, 16, DefaultWindowsShown) == seq(20, k => k * 16)
  {
    WholePeriods(128, 16, DefaultWindowsShown);
  }
}

=== FILE: fiber_dispersion.dfy ===
/** Fiber propagation with chromatic dispersion: the scalar link formulas of
    the dispersion simulation, and the synthesized waveform they act on. The
    Gaussian kernel, the convolution and the spectrum are not modelled; the
    linear loss factor 10^(-attenuation/10) is an input. Fiber length is in
    metres, as after the km-to-m conversion on ingestion. */
module FiberDispersion {
  import Modulation
  import Arith
  import Outcome

  /** Spectral width the program assumes, in nm. */
  const SpectralWidthNm: real := 0.1

  /** Pulse broadening in ps: |D| (ps/nm/km) times length in km times
      spectral width in nm. */
  function TemporalBroadening(dispersion: real, lengthM: real, spectralWidth: real): (ps: real)
  {
    Arith.Abs(dispersion) * lengthM / 1000.0 * spectralWidth
  }

  /** Broadening ignores the sign of D, is never negative on a real fiber and
      vanishes exactly when D does. */
  lemma BroadeningProperties(dispersion: real, lengthM: real, spectralWidth: real)
    ensures TemporalBroadening(-dispersion, lengthM, spectralWidth)
         == TemporalBroadening(dispersion, lengthM, spectralWidth)
    ensures lengthM >= 0.0 && spectralWidth >= 0.0 ==> TemporalBroadening(dispersion, lengthM, spectralWidth) >= 0.0
    ensures lengthM > 0.0 && spectralWidth > 0.0 ==>
      (TemporalBroadening(dispersion, lengthM, spectralWidth) == 0.0 <==> dispersion == 0.0)
  {
    var a := Arith.Abs(dispersion);
    if lengthM >= 0.0 && spectralWidth >= 0.0 {
      assert a * lengthM >= 0.0;
    }
    if lengthM > 0.0 && spectralWidth > 0.0 && dispersion != 0.0 {
      assert a * lengthM > 0.0;
      assert a * lengthM / 1000.0 * spectralWidth > 0.0;
    }
  }

  /** Total fiber loss in dB: coefficient (dB/km) times length in km. */
  function AttenuationDb(coeffDbPerKm: real, lengthM: real): (db: real)
  {
    coeffDbPerKm * lengthM / 1000.0
  }

  /** Loss in dB is linear in length: nothing over zero length, and two
      spans lose the sum of their losses. */
  lemma AttenuationAdditive(coeffDbPerKm: real, l1: real, l2: real)
    ensures AttenuationDb(coeffDbPerKm, 0.0) == 0.0
    ensures AttenuationDb(coeffDbPerKm, l1 + l2) == AttenuationDb(coeffDbPerKm, l1) + AttenuationDb(coeffDbPerKm, l2)
  {
    assert coeffDbPerKm * (l1 + l2) == coeffDbPerKm * l1 + coeffDbPerKm * l2;
  }

  /** Kernel width as a fraction of one bit period: broadening converted
      from ps to s, times the bit rate. */
  function DispersionSigma(broadeningPs: real, bitRate: real): (sigma: real)
  {
    broadeningPs / 1000.0 / 1000.0 * bitRate
  }

  /** The kernel width is zero exactly when the dispersion coefficient is,
      so a dispersion-free fiber reaches the kernel's division by sigma^2
      with sigma = 0. */
  lemma SigmaVanishesWithoutDispersion(dispersion: real, lengthM: real, bitRate: real)
    ensures lengthM > 0.0 && bitRate > 0.0 ==>
      (DispersionSigma(TemporalBroadening(dispersion, lengthM, SpectralWidthNm), bitRate) == 0.0
       <==> dispersion == 0.0)
  {
    BroadeningProperties(dispersion, lengthM, SpectralWidthNm);
    var b := TemporalBroadening(dispersion, lengthM, SpectralWidthNm);
    if b != 0.0 && bitRate > 0.0 {
      assert b / 1000.0 / 1000.0 != 0.0;
    }
  }

  /** Speed of light in m/s, as the program writes it. */
  const SpeedOfLight: real := 299792458.0

  /** Request parameters the scalar part consumes. */
  datatype FiberParams = FiberParams(
    opticalPower: real,      // mW
    carrierWavelengthNm: real,
    lengthM: real,           // m
    attenuationCoeff: real,  // dB/km
    dispersionCoeff: real,   // ps/nm/km
    bitRate: real,           // bit/s
    scheme: Modulation.Scheme)

  /** Results of one dispersion run, with the waveform before dispersion and
      the carrier frequency the spectrum is centred on. */
  datatype FiberResult = FiberResult(
    temporalBroadening: real,
    attenuationDb: real,
    outputPower: real,
    sigma: real,
    signal: seq<int>,
    centerFrequencyThz: real)

  /** The loss factor 10^(-attenuation/10) overflows a double: only a
      negative attenuation coefficient, or a negative length, can cause it. */
  predicate LossFactorOverflows(p: FiberParams)
  {
    -AttenuationDb(p.attenuationCoeff, p.lengthM) / 10.0 > Outcome.MaxPow10Exponent
  }

  /** The kernel width of the run's parameters. */
  function Sigma(p: FiberParams): real
  {
    DispersionSigma(TemporalBroadening(p.dispersionCoeff, p.lengthM, SpectralWidthNm), p.bitRate)
  }

  /** The square of the kernel width overflows a double, which only a huge
      dispersion coefficient, length or bit rate can cause. */
  predicate SigmaSquareOverflows(p: FiberParams)
  {
    Sigma(p) * Sigma(p) > Outcome.MaxDouble
  }

  /** The scalar pipeline of the dispersion handler, given the bit sequence and
      the linear loss factor 10^(-attenuation/10) of the computed attenuation.
      It fails where the handler raises, in the handler's order:
      OverflowError when the loss factor's exponent -attenuation/10 is too
      large (a negative attenuation coefficient); ZeroDivisionError for the
      end of the time axis, num_bits / bit_rate, on a zero bit rate;
      OverflowError for the kernel's sigma**2 when it exceeds the largest
      double; ZeroDivisionError for the carrier frequency,
      c / (wavelength * 1e-9), on a zero wavelength. */
  function Propagate(p: FiberParams, bits: seq<Modulation.Bit>, lossFactor: real): (r: Outcome.Result<FiberResult>)
    requires lossFactor > 0.0
    ensures r.Fail? <==>
      || LossFactorOverflows(p)
      || p.bitRate == 0.0
      || SigmaSquareOverflows(p)
      || p.carrierWavelengthNm == 0.0
    ensures r.Fail? ==>
      (r.error.Overflow? <==> LossFactorOverflows(p) || (p.bitRate != 0.0 && SigmaSquareOverflows(p)))
    ensures r.Ok? ==> r.value.temporalBroadening == TemporalBroadening(p.dispersionCoeff, p.lengthM, SpectralWidthNm)
    ensures r.Ok? ==> r.value.attenuationDb == AttenuationDb(p.attenuationCoeff, p.lengthM)
    ensures r.Ok? ==> r.value.outputPower == p.opticalPower * lossFactor
    ensures r.Ok? ==> r.value.sigma == DispersionSigma(r.value.temporalBroadening, p.bitRate)
    ensures r.Ok? && p.lengthM >= 0.0 ==> r.value.temporalBroadening >= 0.0
    ensures r.Ok? && p.opticalPower > 0.0 ==> r.value.outputPower > 0.0
    ensures r.Ok? && lossFactor <= 1.0 && p.opticalPower >= 0.0 ==> r.value.outputPower <= p.opticalPower
    ensures r.Ok? ==> |r.value.signal| == |bits| * Modulation.SamplesPerBit
    ensures r.Ok? ==> Modulation.IsWaveform(p.scheme, bits, Modulation.SamplesPerBit, r.value.signal)
    ensures r.Ok? && p.lengthM > 0.0 && p.bitRate > 0.0 ==>
      (r.value.sigma == 0.0 <==> p.dispersionCoeff == 0.0)
    ensures r.Ok? ==> r.value.centerFrequencyThz * 1000.0 * p.carrierWavelengthNm == SpeedOfLight
  {
    var attenuation := AttenuationDb(p.attenuationCoeff, p.lengthM);
    var loss :- Outcome.Pow10(-attenuation / 10.0, lossFactor, "loss factor");
    var _ :- Outcome.Divide(Modulation.NumBits as real, p.bitRate, "bit rate");
    var broadening := TemporalBroadening(p.dispersionCoeff, p.lengthM, SpectralWidthNm);
    var sigma := DispersionSigma(broadening, p.bitRate);
    var _ :- Outcome.Square(sigma, "dispersion sigma");
    var hz :- Outcome.Divide(SpeedOfLight, p.carrierWavelengthNm * 0.000000001, "carrier wavelength");
    BroadeningProperties(p.dispersionCoeff, p.lengthM, SpectralWidthNm);
    SigmaVanishesWithoutDispersion(p.dispersionCoeff, p.lengthM, p.bitRate);
    Modulation.SynthesizeIsWaveform(p.scheme, bits, Modulation.SamplesPerBit);
    CarrierFrequency(hz, p.carrierWavelengthNm);
    Outcome.Ok(FiberResult(
      broadening,
      attenuation,
      p.opticalPower * loss,
      sigma,
      Modulation.Synthesize(p.scheme, bits, Modulation.SamplesPerBit),
      hz * 0.000000000001))
  }

  /** Converting the carrier frequency from Hz to THz keeps frequency times
      wavelength equal to the speed of light (wavelength in nm, so the scale
      factors 1e-9 and 1e12 leave a factor 1000). */
  lemma CarrierFrequency(hz: real, wavelengthNm: real)
    requires hz * (wavelengthNm * 0.000000001) == SpeedOfLight
    ensures (hz * 0.000000000001) * 1000.0 * wavelengthNm == SpeedOfLight
  {
    assert hz * (wavelengthNm * 0.000000001) == (hz * 0.000000000001) * 1000.0 * wavelengthNm;
  }

  /** The dB loss a successful run reports is additive over spans: splitting
      the fiber in two gives the loss of the whole. */
  lemma PropagateLoss(p: FiberParams, bits: seq<Modulation.Bit>, lossFactor: real, l1: real, l2: real)
    requires lossFactor > 0.0 && p.bitRate != 0.0 && p.carrierWavelengthNm != 0.0 && p.lengthM == l1 + l2
    requires !LossFactorOverflows(p) && !SigmaSquareOverflows(p)
    ensures Propagate(p, bits, lossFactor).Ok?
    ensures Propagate(p, bits, lossFactor).value.attenuationDb
         == AttenuationDb(p.attenuationCoeff, l1) + AttenuationDb(p.attenuationCoeff, l2)
  {
    AttenuationAdditive(p.attenuationCoeff, l1, l2);
  }

  /** The sample request's parameters: D = 17 ps/nm/km over 50 km with
      0.2 dB/km give 85 ps of broadening and 10 dB of loss. */
  lemma SamplePayload()
    ensures TemporalBroadening(17.0, 50000.0, SpectralWidthNm) == 85.0
    ensures AttenuationDb(0.2, 50000.0) == 10.0
  {
  }
}

=== FILE: grid.dfy ===
/** Evenly spaced sample grids, as numpy's linspace builds them with the end
    point included. */
module Grid {

  /** num points from start to stop: point k is start + k * step with
      step = (stop - start) / (num - 1), and the last point is set to stop
      exactly; a single point is just start. */
  function Linspace(start: real, stop: real, num: nat): (r: seq<real>)
    ensures |r| == num
    ensures num >= 1 ==> r[0] == start
    ensures num >= 2 ==> r[num - 1] == stop
  {
    if num == 0 then []
    else if num == 1 then [start]
    else seq(num, k requires 0 <= k < num => Point(start, stop, num, k))
  }

  /** Point k of a grid of num >= 2 points. */
  function Point(start: real, stop: real, num: nat, k: nat): (x: real)
    requires num >= 2
  {
    if k == num - 1 then stop else start + Offset(start, stop, num, k)
  }

  /** Distance of point k from start: k steps of (stop - start) / (num - 1). */
  function Offset(start: real, stop: real, num: nat, k: nat): real
    requires num >= 2
  {
    (k as real) * ((stop - start) / ((num - 1) as real))
  }

  /** An increasing range gives a strictly increasing grid that stays within it. */
  lemma LinspaceIncreasing(start: real, stop: real, num: nat)
    requires start < stop
    ensures forall i, j :: 0 <= i < j < num ==> Linspace(start, stop, num)[i] < Linspace(start, stop, num)[j]
    ensures forall i :: 0 <= i < num ==> start <= Linspace(start, stop, num)[i] <= stop
  {
    var r := Linspace(start, stop, num);
    if num >= 2 {
      forall i, j | 0 <= i < j < num
        ensures r[i] < r[j]
      {
        PointLess(start, stop, num, i, j);
      }
      forall i | 0 <= i < num
        ensures start <= r[i] <= stop
      {
        if i > 0 {
          PointLess(start, stop, num, 0, i);
        }
        if i < num - 1 {
          PointLess(start, stop, num, i, num - 1);
        }
      }
    }
  }

  /** Consecutive grid points are one step apart: the grid is evenly spaced,
      the last gap included. */
  lemma LinspaceEvenlySpaced(start: real, stop: real, num: nat)
    requires num >= 2
    ensures forall k :: 0 <= k < num - 1 ==>
      Linspace(start, stop, num)[k + 1] - Linspace(start, stop, num)[k] == (stop - start) / ((num - 1) as real)
  {
    var r := Linspace(start, stop, num);
    var d := (num - 1) as real;
    var step := (stop - start) / d;
    assert d * step == stop - start;
    forall k | 0 <= k < num - 1
      ensures r[k + 1] - r[k] == step
    {
      assert Offset(start, stop, num, k) == (k as real) * step;
      assert Offset(start, stop, num, k + 1) == (k as real) * step + step;
      if k + 1 == num - 1 {
        assert (k as real) + 1.0 == d;
        assert (k as real) * step + step == d * step;
      }
    }
  }

  lemma PointLess(start: real, stop: real, num: nat, i: nat, j: nat)
    requires num >= 2 && start < stop && i < j < num
    ensures Point(start, stop, num, i) < Point(start, stop, num, j)
  {
    OffsetLess(start, stop, num, i, j);
  }

  /** Offsets grow with k and the last one spans the whole range. */
  lemma OffsetLess(start: real, stop: real, num: nat, i: nat, j: nat)
    requires num >= 2 && start < stop && i < j < num
    ensures Offset(start, stop, num, i) < Offset(start, stop, num, j)
    ensures Offset(start, stop, num, j) <= stop - start
  {
    var d := (num - 1) as real;
    var step := (stop - start) / d;
    assert step > 0.0;
    assert d * step == stop - start;
    assert (i as real) * step < (j as real) * step;
    assert (j as real) * step <= d * step;
  }
}

=== FILE: link_budget.dfy ===
/** Laser transmission link budget: attenuation coefficient per medium,
    detector noise power and signal-to-noise ratio. The exponential decay
    exp(-alpha * d) is an input, and the BER (the Gaussian Q-function) is not
    modelled. Inputs are already in SI units (A, Hz, K, m); power is in mW, as
    in the program. */
module LinkBudget {
  import Outcome

  /** Propagation medium named on the connection. */
  datatype Medium = Fiber | Air | Vacuum

  /** The medium branch: "fiber" and "air" are matched exactly, and every
      other string (including "vacuum") takes the vacuum branch. */
  function ParseMedium(s: string): (m: Medium)
    ensures m == Fiber <==> s == "fiber"
    ensures m == Air <==> s == "air"
    ensures m == Vacuum <==> s != "fiber" && s != "air"
  {
    if s == "fiber" then Fiber else if s == "air" then Air else Vacuum
  }

  /** Typical fiber loss in dB/km, and the dB-per-neper factor the program
      divides by to turn it into a natural-log coefficient. */
  const FiberLossDbPerKm: real := 0.2
  const DbPerNeper: real := 4.343

  /** Attenuation coefficient alpha, per metre, of each medium. */
  function AttenuationCoefficient(m: Medium): (alpha: real)
    ensures alpha > 0.0
    ensures m == Fiber ==> alpha * DbPerNeper * 1000.0 == FiberLossDbPerKm
    ensures m == Air ==> alpha * 1000.0 == 0.1
    ensures m == Vacuum ==> alpha * 1000.0 == 0.001
  {
    match m
    case Fiber => FiberLossDbPerKm / DbPerNeper / 1000.0
    case Air => 0.1 / 1000.0
    case Vacuum => 0.001 / 1000.0
  }

  /** The media rank vacuum < fiber < air by loss, so every unrecognised
      medium name gets the smallest coefficient. */
  lemma MediumOrdering(s: string)
    ensures AttenuationCoefficient(Vacuum) < AttenuationCoefficient(Fiber) < AttenuationCoefficient(Air)
    ensures AttenuationCoefficient(Vacuum) <= AttenuationCoefficient(ParseMedium(s)) <= AttenuationCoefficient(Air)
    ensures s != "fiber" && s != "air" ==> AttenuationCoefficient(ParseMedium(s)) == AttenuationCoefficient(Vacuum)
  {
  }

  /** Boltzmann's constant as the program writes it (J/K). */
  const BoltzmannConstant: real := 1.38e-23

  /** Thermal noise 4 k T B plus the dark-current term 2 I B. */
  function NoisePower(noiseTemp: real, bandwidth: real, darkCurrent: real): (p: real)
  {
    4.0 * BoltzmannConstant * noiseTemp * bandwidth + 2.0 * darkCurrent * bandwidth
  }

  /** Noise power is linear in bandwidth: zero without bandwidth, additive
      over split bands, and positive for a real detector. */
  lemma NoisePowerInBandwidth(noiseTemp: real, b1: real, b2: real, darkCurrent: real)
    ensures NoisePower(noiseTemp, 0.0, darkCurrent) == 0.0
    ensures NoisePower(noiseTemp, b1 + b2, darkCurrent)
         == NoisePower(noiseTemp, b1, darkCurrent) + NoisePower(noiseTemp, b2, darkCurrent)
    ensures noiseTemp > 0.0 && darkCurrent >= 0.0 && b1 > 0.0 ==> NoisePower(noiseTemp, b1, darkCurrent) > 0.0
  {
    assert 4.0 * BoltzmannConstant * noiseTemp * (b1 + b2)
        == 4.0 * BoltzmannConstant * noiseTemp * b1 + 4.0 * BoltzmannConstant * noiseTemp * b2;
    if noiseTemp > 0.0 && darkCurrent >= 0.0 && b1 > 0.0 {
      assert 4.0 * BoltzmannConstant * noiseTemp > 0.0;
      assert 2.0 * darkCurrent * b1 >= 0.0;
    }
  }

  /** Power at the detector: source power times the decay factor exp(-alpha d). */
  function ReceivedPower(sourcePower: real, decay: real): (p: real)
    requires decay > 0.0
    ensures sourcePower > 0.0 ==> p > 0.0
    ensures decay <= 1.0 && sourcePower >= 0.0 ==> p <= sourcePower
  {
    sourcePower * decay
  }

  /** Linear SNR: responsivity times received power over noise power. A zero
      noise power is a ZeroDivisionError in the program. */
  function Snr(sensitivity: real, powerReceived: real, noiseTemp: real, bandwidth: real, darkCurrent: real): (r: Outcome.Result<real>)
    ensures r.Fail? <==> NoisePower(noiseTemp, bandwidth, darkCurrent) == 0.0
    ensures r.Ok? ==> r.value * NoisePower(noiseTemp, bandwidth, darkCurrent) == sensitivity * powerReceived
  {
    Outcome.Divide(sensitivity * powerReceived, NoisePower(noiseTemp, bandwidth, darkCurrent), "snr")
  }

  /** Without bandwidth the SNR fails; with a real detector and signal it is
      positive and proportional to received power. */
  lemma SnrBehaviour(sensitivity: real, p: real, c: real, noiseTemp: real, bandwidth: real, darkCurrent: real)
    ensures Snr(sensitivity, p, noiseTemp, 0.0, darkCurrent).Fail?
    ensures sensitivity > 0.0 && p > 0.0 && noiseTemp > 0.0 && bandwidth > 0.0 && darkCurrent >= 0.0 ==>
      Snr(sensitivity, p, noiseTemp, bandwidth, darkCurrent).Ok? &&
      Snr(sensitivity, p, noiseTemp, bandwidth, darkCurrent).value > 0.0
    ensures Snr(sensitivity, p, noiseTemp, bandwidth, darkCurrent).Ok? ==>
      Snr(sensitivity, c * p, noiseTemp, bandwidth, darkCurrent).value
        == c * Snr(sensitivity, p, noiseTemp, bandwidth, darkCurrent).value
  {
    NoisePowerInBandwidth(noiseTemp, bandwidth, 0.0, darkCurrent);
    NoisePowerInBandwidth(noiseTemp, 0.0, 0.0, darkCurrent);
  }

  /** Scalar metrics of one transmission run (the BER is not modelled). */
  datatype LinkResult = LinkResult(powerReceived: real, snr: real)

  /** The transmission handler's computation up to the SNR, for a given decay
      factor exp(-alpha * distance). */
  function Transmit(sourcePower: real, decay: real, sensitivity: real, darkCurrent: real,
                    bandwidth: real, noiseTemp: real): (r: Outcome.Result<LinkResult>)
    requires decay > 0.0
    ensures r.Fail? <==> NoisePower(noiseTemp, bandwidth, darkCurrent) == 0.0
    ensures r.Ok? ==> r.value.powerReceived == sourcePower * decay
    ensures r.Ok? ==> r.value.snr * NoisePower(noiseTemp, bandwidth, darkCurrent)
                      == sensitivity * sourcePower * decay
  {
    var p := ReceivedPower(sourcePower, decay);
    var snr :- Snr(sensitivity, p, noiseTemp, bandwidth, darkCurrent);
    Outcome.Ok(LinkResult(p, snr))
  }

  /** The sample request's air parameters: 10 mW over 1000 m of air,
      0.8 A/W, 10 nA dark current, 10 GHz, 300 K. The exponent is -0.1 and the
      run succeeds with a positive SNR whatever the decay factor. */
  lemma AirScenario(decay: real)
    requires decay > 0.0
    ensures AttenuationCoefficient(ParseMedium("air")) * 1000.0 == 0.1
    ensures Transmit(10.0, decay, 0.8, 10.0e-9, 10.0e9, 300.0).Ok?
    ensures Transmit(10.0, decay, 0.8, 10.0e-9, 10.0e9, 300.0).value.snr > 0.0
  {
    SnrBehaviour(0.8, 10.0 * decay, 1.0, 300.0, 10.0e9, 10.0e-9);
  }
}

=== FILE: modulation.dfy ===
/** Bit sequence to sampled waveform: the NRZ/RZ synthesis loop of the fiber
    dispersion simulation. The bit sequence, drawn at random in the program,
    is an input here. */
module Modulation {
  import Arith

  /** One binary symbol, as drawn by the random generator (0 or 1). */
  type Bit = b: int | 0 <= b <= 1

  /** Line-coding scheme named in the request. Only NRZ and RZ have a synthesis
      rule; any other name (DPSK, QPSK, ...) is accepted and writes nothing. */
  datatype Scheme = NRZ | RZ | Unsupported(name: string)

  /** Bits and samples per bit the program uses. */
  const NumBits: nat := 128
  const SamplesPerBit: nat := 16

  /** Reads the scheme name the way the loop compares it: exact, case-sensitive. */
  function ParseScheme(s: string): (sc: Scheme)
    ensures sc == NRZ <==> s == "NRZ"
    ensures sc == RZ <==> s == "RZ"
    ensures sc.Unsupported? ==> sc.name == s
  {
    if s == "NRZ" then NRZ else if s == "RZ" then RZ else Unsupported(s)
  }

  /** The index-based reading of the finished waveform: what sample j holds,
      computed from the bit it belongs to and its offset in that bit's slot. */
  function SampleSpec(scheme: Scheme, bits: seq<Bit>, spb: nat, j: nat): int
    requires spb > 0 && j < |bits| * spb
  {
    Arith.SlotBound(j, spb, |bits|);
    match scheme
    case NRZ => bits[j / spb]
    case RZ => if bits[j / spb] == 1 && j % spb < spb / 2 then 1 else 0
    case Unsupported(_) => 0
  }

  /** True when w is the waveform SampleSpec describes, sample by sample. */
  ghost predicate IsWaveform(scheme: Scheme, bits: seq<Bit>, spb: nat, w: seq<int>)
    requires spb > 0
  {
    && |w| == |bits| * spb
    && forall j :: 0 <= j < |w| ==> w[j] == SampleSpec(scheme, bits, spb, j)
  }

  /** The all-zero array the loop starts from. */
  function Zeros(n: nat): seq<int>
  {
    seq(n, _ => 0)
  }

  /** The value the slice assignment for a bit puts at offset `off` of its slot,
      or `prior` where the assignment leaves the sample alone. */
  function SlotValue(scheme: Scheme, bit: Bit, spb: nat, off: nat, prior: int): int
  {
    match scheme
    case NRZ => bit
    case RZ => if bit == 1 && off < spb / 2 then 1 else prior
    case Unsupported(_) => prior
  }

  /** One iteration of the synthesis loop: the slice assignment for bit i.
      NRZ fills the whole slot with the bit; RZ writes 1 into the first half of
      the slot when the bit is 1; other schemes write nothing. */
  function WriteBit(scheme: Scheme, signal: seq<int>, i: nat, bit: Bit, spb: nat): (r: seq<int>)
    requires (i + 1) * spb <= |signal|
    ensures |r| == |signal|
    ensures forall j :: 0 <= j < |signal| && (j < i * spb || (i + 1) * spb <= j) ==> r[j] == signal[j]
    ensures forall j :: i * spb <= j < (i + 1) * spb ==> r[j] == SlotValue(scheme, bit, spb, j - i * spb, signal[j])
  {
    var start := i * spb;
    match scheme
    case NRZ => signal[..start] + seq(spb, _ => bit) + signal[start + spb..]
    case RZ =>
      if bit == 1 then signal[..start] + seq(spb / 2, _ => 1) + signal[start + spb / 2..]
      else signal
    case Unsupported(_) => signal
  }

  /** The signal after the first k iterations of the loop, starting from the
      all-zero array of |bits| * spb samples. */
  function Fill(scheme: Scheme, bits: seq<Bit>, spb: nat, k: nat): (r: seq<int>)
    requires k <= |bits|
    ensures |r| == |bits| * spb
  {
    if k == 0 then Zeros(|bits| * spb)
    else
      Arith.MulMono(k, |bits|, spb);
      WriteBit(scheme, Fill(scheme, bits, spb, k - 1), k - 1, bits[k - 1], spb)
  }

  /** The waveform the loop leaves once every bit is processed. */
  function Synthesize(scheme: Scheme, bits: seq<Bit>, spb: nat): (w: seq<int>)
    ensures |w| == |bits| * spb
  {
    Fill(scheme, bits, spb, |bits|)
  }

  /** After k iterations, the slots of the first k bits hold their final value
      and every later sample is still zero. */
  lemma {:induction false} FillPrefix(scheme: Scheme, bits: seq<Bit>, spb: nat, k: nat)
    requires spb > 0 && k <= |bits|
    ensures forall j :: 0 <= j < |bits| * spb ==>
      Fill(scheme, bits, spb, k)[j] == (if j < k * spb then SampleSpec(scheme, bits, spb, j) else 0)
  {
    if k > 0 {
      FillPrefix(scheme, bits, spb, k - 1);
      var prev := Fill(scheme, bits, spb, k - 1);
      var cur := Fill(scheme, bits, spb, k);
      forall j | 0 <= j < |bits| * spb
        ensures cur[j] == (if j < k * spb then SampleSpec(scheme, bits, spb, j) else 0)
      {
        if (k - 1) * spb <= j < k * spb {
          Arith.SlotOf(j, spb, k - 1);
        }
      }
    }
  }

  /** The loop computes the index-based waveform. */
  lemma SynthesizeIsWaveform(scheme: Scheme, bits: seq<Bit>, spb: nat)
    requires spb > 0
    ensures IsWaveform(scheme, bits, spb, Synthesize(scheme, bits, spb))
  {
    FillPrefix(scheme, bits, spb, |bits|);
  }

  /** NRZ: every sample repeats the bit of the slot it lies in. */
  lemma NrzHoldsBit(bits: seq<Bit>, spb: nat, j: nat)
    requires spb > 0 && j < |bits| * spb
    ensures j / spb < |bits|
    ensures Synthesize(NRZ, bits, spb)[j] == bits[j / spb]
  {
    Arith.SlotBound(j, spb, |bits|);
    SynthesizeIsWaveform(NRZ, bits, spb);
  }

  /** RZ: a sample is 1 exactly when its bit is 1 and it lies in the first half
      of the slot (half rounded down); otherwise it is 0. */
  lemma RzFirstHalf(bits: seq<Bit>, spb: nat, j: nat)
    requires spb > 0 && j < |bits| * spb
    ensures j / spb < |bits|
    ensures Synthesize(RZ, bits, spb)[j] == 1 <==> bits[j / spb] == 1 && j % spb < spb / 2
    ensures Synthesize(RZ, bits, spb)[j] == 0 <==> !(bits[j / spb] == 1 && j % spb < spb / 2)
  {
    Arith.SlotBound(j, spb, |bits|);
    SynthesizeIsWaveform(RZ, bits, spb);
  }

  /** Every synthesized sample is 0 or 1, and an unsupported scheme leaves the
      all-zero array untouched. */
  lemma WaveformShape(scheme: Scheme, bits: seq<Bit>, spb: nat)
    requires spb > 0
    ensures |Synthesize(scheme, bits, spb)| == |bits| * spb
    ensures forall j :: 0 <= j < |bits| * spb ==> Synthesize(scheme, bits, spb)[j] in {0, 1}
    ensures scheme.Unsupported? ==> Synthesize(scheme, bits, spb) == Zeros(|bits| * spb)
  {
    SynthesizeIsWaveform(scheme, bits, spb);
  }

  /** RZ is NRZ gated by the first half of each slot. */
  lemma RzGatesNrz(bits: seq<Bit>, spb: nat, j: nat)
    requires spb > 0 && j < |bits| * spb
    ensures Synthesize(RZ, bits, spb)[j] ==
      (if j % spb < spb / 2 then Synthesize(NRZ, bits, spb)[j] else 0)
  {
    RzFirstHalf(bits, spb, j);
    NrzHoldsBit(bits, spb, j);
  }

  /** The same loop over an array, filled slot by slot as the program does. */
  method SynthesizeSignal(scheme: Scheme, bits: seq<Bit>, spb: nat) returns (signal: seq<int>)
    requires spb > 0
    ensures IsWaveform(scheme, bits, spb, signal)
  {
    var n := |bits| * spb;
    var a := new int[n](_ => 0);
    for i := 0 to |bits|
      invariant i * spb <= n
      invariant forall j :: 0 <= j < n ==>
        a[j] == (if j < i * spb then SampleSpec(scheme, bits, spb, j) else 0)
    {
      var start := i * spb;
      Arith.MulMono(i + 1, |bits|, spb);
      var stop := match scheme
        case NRZ => start + spb
        case RZ => if bits[i] == 1 then start + spb / 2 else start
        case Unsupported(_) => start;
      var value := if scheme.NRZ? then bits[i] else 1;
      for j := start to stop
        invariant forall m :: 0 <= m < n ==>
          a[m] == (if m < j then SampleSpec(scheme, bits, spb, m) else 0)
      {
        Arith.SlotOf(j, spb, i);
        a[j] := value;
      }
      forall m | start <= m < start + spb
        ensures a[m] == SampleSpec(scheme, bits, spb, m)
      {
        Arith.SlotOf(m, spb, i);
      }
    }
    signal := a[..];
  }
}

=== FILE: outcome.dfy ===
/** The program's failure modes for the formulas modelled here: a Python
    ZeroDivisionError or OverflowError, which each request handler catches
    and reports as an error response instead of a result. */
module Outcome {

  datatype Error = ZeroDivision(what: string) | Overflow(what: string)

  datatype Result<T> = Ok(value: T) | Fail(error: Error)
  {
    /** A failed step ends the handler's computation. */
    predicate IsFailure() {
      Fail?
    }

    /** Carries a failure over to a computation of another result type. */
    function PropagateFailure<U>(): Result<U>
      requires Fail?
    {
      Fail(error)
    }

    /** The value of a successful step. */
    function Extract(): T
      requires Ok?
    {
      value
    }
  }

  /** Python's float division: fails on a zero divisor. */
  function Divide(num: real, den: real, what: string): (r: Result<real>)
    ensures r.Fail? <==> den == 0.0
    ensures r.Fail? ==> r.error.ZeroDivision?
    ensures r.Ok? ==> r.value * den == num
  {
    if den == 0.0 then Fail(ZeroDivision(what)) else Ok(num / den)
  }

  /** The largest finite double. */
  const MaxDouble: real := 1.7976931348623157e308

  /** Python's x**2 on a float, which raises OverflowError once the square
      exceeds the largest double. */
  function Square(x: real, what: string): (r: Result<real>)
    ensures r.Fail? <==> x * x > MaxDouble
    ensures r.Fail? ==> r.error.Overflow?
    ensures r.Ok? ==> r.value == x * x && r.value >= 0.0
  {
    if x * x > MaxDouble then Fail(Overflow(what)) else Ok(x * x)
  }

  /** Decimal logarithm of the largest finite double, 1.7976931348623157e308,
      to 16 significant digits: the largest exponent x for which 10**x is
      still a finite float. */
  const MaxPow10Exponent: real := 308.2547155599167

  /** Python's 10**x on a float exponent, which raises OverflowError once the
      result would exceed the largest double. The power itself is
      transcendental, so its value is supplied as `power`. */
  function Pow10(x: real, power: real, what: string): (r: Result<real>)
    ensures r.Fail? <==> x > MaxPow10Exponent
    ensures r.Fail? ==> r.error.Overflow?
    ensures r.Ok? ==> r.value == power
  {
    if x > MaxPow10Exponent then Fail(Overflow(what)) else Ok(power)
  }
}
